=== FILE: README.md ===
# EmoScope live-news dashboard: ingestion, dedup, cache and aggregation

A Dafny model of the part of the EmoScope dashboard that handles live news. Each event on the breaking-news stream carries a JSON payload. The dashboard sorts the payload into one of three shapes:

- **Shape A**: an array of trend topics.
- **Shape B**: one topic with a `news` array.
- **Shape C**: a single flat news object.

It reshapes the payload into collection entries and merges them into a newest-first collection, using `title` as the dedup key. It mirrors the collection into a two-entry browser cache with a fifteen-minute expiry. From the collection it derives two views: a sentiment percentage breakdown and time-bucketed trend counts.

Modules:

- `Js` (`js.dfy`): the JavaScript semantics the code relies on.
  - Decoded JSON values plus `undefined`.
  - `?.` property access, truthiness and `||`.
  - A call that throws, as `Outcome.Thrown`.
  - `Array.prototype.map` with a callback that may throw.
  - The host functions that stay uninterpreted, passed in as an `Env`: `new URL(..).hostname` (which may fail), `toLocaleTimeString` and `toLowerCase`.
- `Normalize` (`normalize.dfy`): `isGoogleNewsArray`, the three-way shape test, `simplifyTrendingNews`, `formatTrendNewsItem`, `formatSingleNewsItem`, and the Shape B fan-out.
- `Merge` (`merge.dfy`): the dedup merges of `onmessage` and the title-uniqueness facts about them.
- `Stream` (`stream.dfy`): what one received event does to the collection.
- `Cache` (`cache.dfy`): load, save and clear over an abstract `{items?, timestamp?}` store with an explicit clock.
- `Session` (`session.dfy`): the collection and the store together: mounting, receiving an event, and the clear button. It includes the save effect, which runs only when React sees a new collection array.
- `Sentiment` (`sentiment.dfy`): the three exact-case labels and a per-label tally.
- `Overview` (`overview.dfy`): the sentiment percentage breakdown.
- `TrendGraph` (`trend.dfy`): one-hot points, time buckets, and the legend filter toggle.

Behaviour of the code that the model keeps, where the evident intent differs (for instance the "Avoid duplicates" comment at `Dashboard.jsx:143`):

- Shape A topics are kept as cut-down raw records, not formatted items, so they have no top-level `title`. All of them share the absent title. Once one record is in the collection, every later Shape A event adds nothing (`Stream.ShapeAShadowedByRecord`). Two records in one event already share a title (`Stream.ShapeABatchNeverUnique`).
- A throw while formatting any element drops the whole event, siblings included (`Stream.ShapeBFailureDropsEvent`). Example throws: a URL that does not parse, `null` in `news`, or a non-string sentiment. Failures are not isolated per item.
- Incoming items are deduplicated only against the previous collection. Duplicates inside one batch both survive (`Merge.BatchDuplicatesSurvive`). Title uniqueness is therefore kept only for batches without internal repeats (`Stream.OnMessageKeepsUnique`).
- The sentiment overview reads `item.groqAnalysis.sentiment` without a guard. Formatted (Shape B and C) items have no `groqAnalysis`, so any collection holding one makes the overview throw (`Overview.SentimentOverview`). Its counters match labels by JavaScript property key, so `["Positive"]` counts as Positive. The trend graph uses `===`, so it does not count that label.
- Any Shape A or B event builds a new array, even when every element was a duplicate. So such an event still rewrites the cache timestamp. A duplicate Shape C item returns the old array and writes nothing (`Session.DuplicateBatchRefreshesTimestamp`). A mount that hydrates from the cache also rewrites the timestamp (`Session.MountRefreshesTimestamp`).
- Clicking the same legend badge twice restores the filter only if the filter was off or already on that badge. Starting from a different badge, the filter ends off (`TrendGraph.ToggleTwice`).

## Model

| member | source | states |
|---|---|---|
| `Js.Hostname` | frontend/src/components/Dashboard.jsx:57 | the host is produced exactly when the URL field is a string the URL parser accepts, and is that parser's hostname |
| `Js.LocalTime` | frontend/src/components/Dashboard.jsx:58 | `new Date(v)` followed by the locale time string throws exactly when converting `v` to a primitive throws; otherwise it yields the host's formatted time |
| `Js.ConversionExamples` | frontend/src/components/SentimentOverview.jsx:14 | an own `toString` key breaks conversion, directly or inside an array; an own `valueOf` key alone does not, and nullish array elements join as empty |
| `Js.MapOrThrow` | frontend/src/components/Dashboard.jsx:154-156 | a map succeeds iff the callback succeeds on every element; it then has one result per element, in order |
| `Normalize.Classify` | frontend/src/components/Dashboard.jsx:139-168 | Shape A iff the payload is a non-empty array whose first element has an array `news`. Otherwise a nullish payload throws. Shape B iff it is an object with an array `news`. Everything else is Shape C |
| `Normalize.IsGoogleNewsArray` | frontend/src/components/Dashboard.jsx:51-53 | passes iff the payload is a non-empty array whose first element is an object with an array-valued `news` key; a nullish first element never passes |
| `Normalize.BiasOf` | frontend/src/components/Dashboard.jsx:61 | the bias is always "10/100" or "30/100", and "10/100" exactly when the analysis is an object whose `bias_level` is the string "Low" |
| `Normalize.SimplifyTopic` | frontend/src/components/Dashboard.jsx:40-48 | a topic throws iff it or its `news` is nullish. The kept `news` is a prefix of the original of length min(1, n); a non-empty string `news` keeps its first character. The date, trend and analysis are carried over, and `published_date` becomes `publishedDate` |
| `Normalize.SimplifyTrendingNews` | frontend/src/components/Dashboard.jsx:39-49 | succeeds iff every topic does; then one record per topic, in order |
| `Normalize.SentimentOf` | frontend/src/components/Dashboard.jsx:60 | throws exactly when the analysis sentiment is neither nullish nor a string |
| `Normalize.FormatTrendNewsItem` | frontend/src/components/Dashboard.jsx:55-66 | throws iff the item is nullish, or it has no truthy `source` and its `url` does not parse, or the shared date cannot be converted, or the sentiment cannot be lower-cased. Bias is 10/100 iff `bias_level` is "Low", else 30/100. Sentiment is the lower-cased label or "neutral"; emotion is the mood or "Neutral". Both flags are true. The title and URL come from the item, the time from the shared date. The source is the item's own `source` when that is truthy, and otherwise the hostname parsed from its `url` |
| `Normalize.FormatSingleNewsItem` | frontend/src/components/Dashboard.jsx:68-79 | as above (the date is the payload's own `pubDate`), but the host always comes from `newsUrl`, so an unparsable `newsUrl` always throws, and the snippet falls back to `description` |
| `Normalize.FormatBatch` | frontend/src/components/Dashboard.jsx:153-156 | Shape B fan-out: succeeds iff every element formats. Then one item per `news` element, in order: each is exactly what `formatTrendNewsItem` builds from that element with the shared date and analysis, so it has its own title, URL and source and the shared time, snippet and analysis fields |
| `Normalize.NormalizePayload` | frontend/src/components/Dashboard.jsx:139-168 | for each shape: when the payload's entries are produced (all elements must succeed), their number, and what each entry holds. Shape A gives one cut-down record per topic; each Shape B entry is the formatted item of its `news` element; Shape C gives the one formatted item |
| `Merge.Fresh` | frontend/src/components/Dashboard.jsx:144-148 | the kept items are exactly the batch items whose title is not in the previous collection, with their multiplicity, as a subsequence of the batch |
| `Merge.MergeBatch` | frontend/src/components/Dashboard.jsx:142-150 | the result is the fresh items followed by the previous collection unchanged, and grows by at most the batch size |
| `Merge.MergeSingle` | frontend/src/components/Dashboard.jsx:169-174 | the collection is returned unchanged iff some element has an equal title; otherwise the item goes in front |
| `Merge.FreshAllPresent` | frontend/src/components/Dashboard.jsx:144-148 | a batch whose every title is already present contributes nothing |
| `Merge.MergeBatchIdempotent` | frontend/src/components/Dashboard.jsx:142-150 | merging the same batch into the result of a merge leaves it unchanged |
| `Merge.MergeSingleIsBatchOfOne` | frontend/src/components/Dashboard.jsx:168-174 | the single-item path agrees with the batch path on a one-element batch |
| `Merge.FreshKeepsUnique` | frontend/src/components/Dashboard.jsx:158-162 | filtering a title-unique batch leaves it title-unique |
| `Merge.MergeBatchKeepsUnique` | frontend/src/components/Dashboard.jsx:157-164 | a title-unique collection stays title-unique after merging a title-unique batch |
| `Merge.BatchDuplicatesSurvive` | frontend/src/components/Dashboard.jsx:157-164 | two items with the same title, absent from the collection, both enter it in front, breaking uniqueness |
| `Merge.MergeSingleKeepsUnique` | frontend/src/components/Dashboard.jsx:168-174 | the single-item path always keeps the collection title-unique |
| `Stream.OnMessage` | frontend/src/components/Dashboard.jsx:130-179 | no change iff the event has no data, does not parse, throws while normalizing, or is a Shape C duplicate. Otherwise the previous collection is a suffix of the result. For a batch, the new prefix is exactly the batch items whose titles the previous collection lacks, in batch order; a single item goes in front |
| `Stream.ShapeBFailureDropsEvent` | frontend/src/components/Dashboard.jsx:153-178 | one element that fails to format drops the whole Shape B event |
| `Stream.ShapeBFanOut` | frontend/src/components/Dashboard.jsx:153-164 | a fully formatted Shape B event adds at most one item per element, each with the shared time and analysis |
| `Stream.ShapeAShadowedByRecord` | frontend/src/components/Dashboard.jsx:140-150 | once any Shape A record is in the collection, a Shape A event leaves the collection as it was |
| `Stream.ShapeABatchNeverUnique` | frontend/src/components/Dashboard.jsx:140-149 | two or more Shape A records in one event always share the absent title |
| `Stream.OnMessageKeepsUnique` | frontend/src/components/Dashboard.jsx:140-174 | every event keeps the collection title-unique when its batch has no internal repeat |
| `Stream.ShapeAExample` | frontend/src/components/Dashboard.jsx:140-150 | a one-topic Shape A payload adds one record; its title is absent, and "X" sits in its `news` element |
| `Cache.Load` | frontend/src/components/Dashboard.jsx:84-99 | a hit iff both entries are present and now is less than timestamp + 900000 ms; a hit yields the stored items |
| `Cache.Save` | frontend/src/components/Dashboard.jsx:113-122 | an empty collection leaves the store as it was; otherwise both entries are overwritten with the items and now |
| `Cache.Clear` | frontend/src/components/Dashboard.jsx:192-194 | both entries are removed |
| `Cache.SaveThenLoad` | frontend/src/components/Dashboard.jsx:88-117 | a saved collection reads back unchanged exactly while it is younger than `CACHE_EXPIRY_TIME` |
| `Cache.FourteenAndSixteenMinutes` | frontend/src/components/Dashboard.jsx:28 | a write is readable 14 minutes later and gone 16 minutes later |
| `Cache.ClearThenLoad` | frontend/src/components/Dashboard.jsx:192-194 | after a clear nothing loads, at any time |
| `Session.Mount` | frontend/src/components/Dashboard.jsx:82-122 | a miss keeps the empty collection and the store; a hit hydrates the stored items. The cache then mirrors the collection |
| `Session.Receive` | frontend/src/components/Dashboard.jsx:113-179 | the new collection is what the event handler produces, and the cache keeps mirroring it. The old collection is a suffix of the new. No new array means no change at all; a new non-empty array is written with the current time, and an empty collection leaves the stored cache untouched |
| `Session.ClearCache` | frontend/src/components/Dashboard.jsx:192-197 | the collection is emptied and both entries removed |
| `Session.ReloadRestores` | frontend/src/components/Dashboard.jsx:82-122 | reloading within the expiry time restores exactly the collection last held |
| `Session.MountRefreshesTimestamp` | frontend/src/components/Dashboard.jsx:93-117 | a hydrating mount rewrites the timestamp to now and keeps the items |
| `Session.DuplicateBatchRefreshesTimestamp` | frontend/src/components/Dashboard.jsx:113-164 | an all-duplicate batch leaves the collection as it was but rewrites the cache timestamp |
| `Session.ClearThenMount` | frontend/src/components/Dashboard.jsx:192-197 | after a clear, a mount at any time gives an empty collection and an empty store |
| `Overview.Percent` | frontend/src/components/SentimentOverview.jsx:22 | 0 when the total is 0. Otherwise the nearest integer to 100·count/total, halves rounded up. At most 100 when count ≤ total |
| `Overview.CounterOf` | frontend/src/components/SentimentOverview.jsx:14 | a string label names a counter iff it is that counter's exact-case name ("positive" counts nowhere); an array counts only through its single element, so an empty or multi-element array, and any value that is neither a string nor an array, counts nowhere |
| `Overview.CounterOfArray` | frontend/src/components/SentimentOverview.jsx:14 | an array used as a counter key names exactly the counter its single element names (`join` of one element is that element's string), and an empty or multi-element array names none |
| `Overview.SentimentOverview` | frontend/src/components/SentimentOverview.jsx:5-41 | throws iff some entry has no analysis, and so whenever a formatted item is present, or its label cannot be converted to a property key. Otherwise exactly three shares, in the order Positive, Neutral, Negative. Each is the rounded percentage of its counted entries, and all are 0 for an empty collection |
| `Overview.SharesWithinHundred` | frontend/src/components/SentimentOverview.jsx:19-41 | every share the overview shows is at most 100 |
| `Overview.CountsWithinTotal` | frontend/src/components/SentimentOverview.jsx:5-17 | Positive + Neutral + Negative counts are at most the number of entries |
| `Overview.StringCounterExactCase` | frontend/src/components/SentimentOverview.jsx:13-17 | a string label counts under a counter iff it equals that counter's exact-case name |
| `Overview.SharesNearHundred` | frontend/src/components/SentimentOverview.jsx:22-36 | when every entry is counted, the three shares add up to 99, 100 or 101 |
| `Overview.FourItemExample` | frontend/src/components/SentimentOverview.jsx:22-34 | two of four give 50 and one of four gives 25 |
| `TrendGraph.OneHot` | frontend/src/components/SentimentTrendGraph.jsx:34-44 | for an entry whose date converts: time is the formatted publication date. At most one counter is 1, and a counter is 1 iff the label is exactly its name |
| `TrendGraph.Bucketize` | frontend/src/components/SentimentTrendGraph.jsx:47-63 | no more buckets than points, and at least one for a non-empty input |
| `TrendGraph.UpdateGraph` | frontend/src/components/SentimentTrendGraph.jsx:31-64 | an empty collection leaves the previous graph data untouched. Otherwise the effect throws iff some entry's `pubDate` cannot be converted. If none fails, the buckets group the one-hot points (distinct times, exactly the occurring ones, first-seen order, per-time sums), and each label's buckets add up to the number of entries with exactly that label |
| `TrendGraph.AddPoint` | frontend/src/components/SentimentTrendGraph.jsx:48-61 | one `forEach` step keeps every existing bucket's key and position; it adds at most one bucket, and a new bucket is the point itself at the end |
| `TrendGraph.AddPointGroups` | frontend/src/components/SentimentTrendGraph.jsx:48-61 | one `forEach` step keeps the grouping invariant |
| `TrendGraph.BucketizeGroups` | frontend/src/components/SentimentTrendGraph.jsx:47-63 | the bucket times are distinct and are exactly the times that occur. Buckets are ordered by the first occurrence of their time, and each holds the sum of the points with its time |
| `TrendGraph.OneBucketPerTime` | frontend/src/components/SentimentTrendGraph.jsx:47-56 | every point's time names exactly one bucket, so two entries share a bucket iff their formatted times are equal |
| `TrendGraph.BucketizeKeepsTotal` | frontend/src/components/SentimentTrendGraph.jsx:58-60 | bucketing neither loses nor invents counts |
| `TrendGraph.OneHotTotal` | frontend/src/components/SentimentTrendGraph.jsx:34-44 | over the one-hot points, a label's total is the number of entries with exactly that label |
| `TrendGraph.GraphTotals` | frontend/src/components/SentimentTrendGraph.jsx:34-63 | for each label, the buckets add up to the number of entries with exactly that label |
| `TrendGraph.BucketWithinSize` | frontend/src/components/SentimentTrendGraph.jsx:38-60 | a bucket's three counts sum to at most the number of entries in it |
| `TrendGraph.Toggle` | frontend/src/components/SentimentTrendGraph.jsx:66-68 | clicking the active label clears the filter; any other click selects the clicked label |
| `TrendGraph.ToggleTwice` | frontend/src/components/SentimentTrendGraph.jsx:66-68 | a double click restores the state iff the filter was off or on the clicked label; from another label it ends off |
| `TrendGraph.VisibleLines` | frontend/src/components/SentimentTrendGraph.jsx:138-151 | with no filter all three lines are drawn in legend order; otherwise only the active one |

## Left out

- The `EventSource` subscription lifecycle (`Dashboard.jsx:125-128, 181-189`) is browser I/O and effect scheduling. This covers `onerror`, cleanup and the live-mode toggle. Only what one received event does is modelled.
- `JSON.parse` of an event is replaced by the `Event` cases `NoData`, `Unparsable` and `Decoded`. JSON numbers are exact reals, not doubles.
- Browser storage and the JSON serialisation of the cache are replaced by the abstract `Store`. Not modelled: storage write failures, a write where the items are stored but the timestamp is not, stored items that fail to parse, and a timestamp that `parseInt` cannot read. Each of these is a caught exception or NaN in the source.
- `Session.Mount`: load and save share one clock reading; the source reads `Date.now()` twice.
- React scheduling is not modelled: when updaters run, StrictMode double calls, and the `isLoading` flag.
- `Js.Hostname`: the source stringifies a non-string URL before parsing it; the model treats every non-string as invalid. The source would accept a one-element array holding a URL string.
- `Normalize.SimplifyTopic`: a `news` object with its own `length` key is treated as having no length. For a string `news`, the first character is a Unicode scalar value; JavaScript takes a UTF-16 code unit.
- Titles are compared structurally. This is `===` for strings, numbers, booleans, `null` and `undefined`. For object or array titles, JavaScript compares references, which never match across separately parsed events.
- `Overview.Percent`: computed in exact arithmetic. The source's `(count / total) * 100` in IEEE doubles can fall just below a .5 tie: 29 of 200 gives 14.499999999999998, which rounds to 14, where the model gives 15.
- `TrendGraph.Bucketize`: the model assumes no formatted time is an integer-like key, which `Object.values` would list first in numeric order. It also assumes no formatted time names a property inherited by plain objects. Hour:minute strings are neither.
- `TrendGraph.UpdateGraph`: a throw inside the effect is returned as `Thrown`. What React does next, unmounting the tree when there is no error boundary, is not modelled.
- `TrendGraph.UpdateGraph`: the prop is always the dashboard's collection array, so the not-an-array branch (`SentimentTrendGraph.jsx:32`) cannot be reached in the model.
- `toLocaleTimeString`, `toLowerCase` and the URL parser are uninterpreted parameters (`Js.Env`), so locale and Unicode case rules are not modelled.
- Left out because they are rendering, hard-coded sample data, or calls to outside services with nothing self-contained to verify:
  - `backend/server.ts`: upload handling, transcription, OCR and LLM analysis.
  - The chat page and chat message components.
  - The sentiment feed renderer.
  - The marketing and layout components.

=== FILE: cache.dfy ===
/** The Cache Store of the dashboard (frontend/src/components/Dashboard.jsx):
    the two browser-storage entries `news_cache` and `news_cache_timestamp`,
    read and written as a pure state transformer with an explicit clock. */
module Cache {
  import opened Js
  import opened Normalize

  /** `CACHE_EXPIRY_TIME`: fifteen minutes, in milliseconds. */
  const CacheExpiryTime: int := 15 * 60 * 1000

  /** The stored collection and the epoch-millisecond time it was written;
      each entry may be absent. */
  datatype Store = Store(items: Option<seq<Entry>>, timestamp: Option<int>)

  /** The load on mount: a hit needs both entries and a timestamp less than
      `CacheExpiryTime` in the past. A timestamp in the future is a hit. */
  function Load(store: Store, now: int): (r: Option<seq<Entry>>)
    ensures r.Some? <==>
              store.items.Some? && store.timestamp.Some? && now < store.timestamp.value + 900000
    ensures r.Some? ==> r.value == store.items.value
  {
    if store.items.Some? && store.timestamp.Some? && now - store.timestamp.value < CacheExpiryTime then
      Some(store.items.value)
    else
      None
  }

  /** The effect run after the collection changes: an empty collection is
      never written; otherwise both entries are overwritten. */
  function Save(store: Store, items: seq<Entry>, now: int): (r: Store)
    ensures |items| == 0 ==> r == store
    ensures |items| > 0 ==> r.items == Some(items) && r.timestamp == Some(now)
  {
    if |items| > 0 then Store(Some(items), Some(now)) else store
  }

  /** `clearCache` on the storage side: both entries removed. */
  function Clear(store: Store): (r: Store)
    ensures r.items.None? && r.timestamp.None?
  {
    Store(None, None)
  }

  /** A write is read back unchanged exactly while it is younger than the
      expiry time. */
  lemma SaveThenLoad(store: Store, items: seq<Entry>, t0: int, now: int)
    requires |items| > 0
    ensures Load(Save(store, items, t0), now) == (if now - t0 < CacheExpiryTime then Some(items) else None)
  {
  }

  /** Fourteen minutes after a write the collection is still there; sixteen
      minutes after, it is gone. */
  lemma FourteenAndSixteenMinutes(store: Store, items: seq<Entry>, t0: int)
    requires |items| > 0
    ensures Load(Save(store, items, t0), t0 + 14 * 60 * 1000) == Some(items)
    ensures Load(Save(store, items, t0), t0 + 16 * 60 * 1000) == None
  {
    SaveThenLoad(store, items, t0, t0 + 14 * 60 * 1000);
    SaveThenLoad(store, items, t0, t0 + 16 * 60 * 1000);
  }

  /** After a clear nothing loads, whenever the load happens. */
  lemma ClearThenLoad(store: Store, now: int)
    ensures Load(Clear(store), now).None?
  {
  }
}

=== FILE: js.dfy ===
/** The slice of JavaScript semantics the dashboard relies on: decoded JSON
    values, optional property access, truthiness, `||`, throwing calls, and
    the host functions the model treats as uninterpreted. */
module Js {

  /** A decoded JSON value, plus `Undefined` for a property that is absent. */
  datatype Value =
    | Undefined
    | Null
    | Bool(b: bool)
    | Num(n: real)
    | Str(s: string)
    | Arr(elems: seq<Value>)
    | Obj(fields: map<string, Value>)

  datatype Option<+T> = None | Some(value: T)

  /** The result of evaluating an expression that may throw. Every throw in
      the modelled code lands in one catch, so the error itself is not kept. */
  datatype Outcome<+T> = Ok(value: T) | Thrown {

    predicate IsFailure() {
      Thrown?
    }

    function PropagateFailure<U>(): Outcome<U>
      requires Thrown?
    {
      Thrown
    }

    function Extract(): T
      requires Ok?
    {
      value
    }
  }

  /** The functions of the JavaScript host the model does not interpret. */
  datatype Env = Env(
    /** `new URL(s).hostname`; None when the constructor throws */
    hostname: string -> Option<string>,
    /** `new Date(v).toLocaleTimeString([], {hour: '2-digit', minute: '2-digit'})`
        for a value whose conversion succeeds */
    localTime: Value -> string,
    /** `String.prototype.toLowerCase` */
    lower: string -> string)

  /** `v == null`: reading a property of such a value with `.` throws. */
  predicate Nullish(v: Value) {
    v.Undefined? || v.Null?
  }

  /** `v?.k` (and `v.k` on a value that is not nullish) for the record keys
      the dashboard reads; none of them names a built-in property of
      strings, arrays or Object.prototype. */
  function Field(v: Value, k: string): Value {
    if v.Obj? && k in v.fields then v.fields[k] else Undefined
  }

  /** ToBoolean */
  predicate Truthy(v: Value) {
    match v
    case Undefined => false
    case Null => false
    case Bool(b) => b
    case Num(n) => n != 0.0
    case Str(s) => s != ""
    case Arr(_) => true
    case Obj(_) => true
  }

  /** `a || b` */
  function Or(a: Value, b: Value): Value {
    if Truthy(a) then a else b
  }

  /** Whether converting `v` to a primitive throws, as `new Date(v)`,
      `String(v)` and a computed property key do. A decoded object never
      holds a function, so an own `toString` key is not callable: both
      conversion orders skip it, reach an object-valued `valueOf` (or skip a
      non-callable own one) and raise a TypeError. Without an own `toString`
      the inherited one yields "[object Object]". An array converts through
      `join`, which converts every element that is not nullish. */
  predicate ConversionThrows(v: Value) {
    match v
    case Obj(fields) => "toString" in fields
    case Arr(es) => exists i :: 0 <= i < |es| && ConversionThrows(es[i])
    case _ => false
  }

  /** An own `toString` key breaks conversion, directly or inside an array;
      an own `valueOf` key alone does not. */
  lemma ConversionExamples()
    ensures ConversionThrows(Obj(map["toString" := Num(0.0)]))
    ensures ConversionThrows(Arr([Str("Positive"), Obj(map["toString" := Null])]))
    ensures !ConversionThrows(Obj(map["valueOf" := Num(0.0)]))
    ensures !ConversionThrows(Arr([Null, Str("Positive")]))
  {
    var bad := Obj(map["toString" := Null]);
    assert ConversionThrows(bad);
    assert [Str("Positive"), bad][1] == bad;
    var ok := [Null, Str("Positive")];
    assert !ConversionThrows(ok[0]) && !ConversionThrows(ok[1]);
  }

  /** `new Date(v).toLocaleTimeString([], {hour: '2-digit', minute: '2-digit'})`:
      an unparsable date gives the host's "Invalid Date" string, but a
      failing conversion throws. */
  function LocalTime(env: Env, v: Value): (r: Outcome<string>)
    ensures r.Thrown? <==> ConversionThrows(v)
    ensures r.Ok? ==> r.value == env.localTime(v)
  {
    if ConversionThrows(v) then Thrown else Ok(env.localTime(v))
  }

  /** `new URL(url).hostname`, with the URL taken from a decoded field. A
      missing field is stringified to "undefined", which is no URL. */
  function Hostname(env: Env, url: Value): (r: Outcome<Value>)
    ensures r.Ok? ==> url.Str? && env.hostname(url.s).Some? && r.value == Str(env.hostname(url.s).value)
    ensures url.Str? && env.hostname(url.s).Some? ==> r.Ok?
  {
    if url.Str? then
      match env.hostname(url.s)
      case Some(h) => Ok(Str(h))
      case None => Thrown
    else
      Thrown
  }

  /** `xs.map(f)` with a callback that may throw: the first throw aborts the
      whole map. */
  function MapOrThrow<A, B>(xs: seq<A>, f: A -> Outcome<B>): (r: Outcome<seq<B>>)
    ensures r.Ok? <==> forall i :: 0 <= i < |xs| ==> f(xs[i]).Ok?
    ensures r.Ok? ==> |r.value| == |xs|
    ensures r.Ok? ==> forall i :: 0 <= i < |xs| ==> r.value[i] == f(xs[i]).value
  {
    if xs == [] then
      Ok([])
    else
      var head :- f(xs[0]);
      var tail :- MapOrThrow(xs[1..], f);
      Ok([head] + tail)
  }
}

=== FILE: merge.dfy ===
/** The Dedup Merger of the dashboard (frontend/src/components/Dashboard.jsx):
    folding a batch into the newest-first collection with `title` as the
    key, compared with `===`. */
module Merge {
  import opened Js
  import opened Normalize

  /** `prev.some(e => e.title === t)` */
  predicate HasTitle(c: seq<Entry>, t: Value) {
    exists e :: e in c && Title(e) == t
  }

  /** No two elements of the collection share a title. */
  predicate TitleUnique(c: seq<Entry>) {
    forall i, j :: 0 <= i < j < |c| ==> Title(c[i]) != Title(c[j])
  }

  /** `a` can be obtained from `b` by deleting elements. */
  predicate Subsequence<T(==)>(a: seq<T>, b: seq<T>)
    decreases |b|
  {
    if a == [] then true
    else if b == [] then false
    else if a[0] == b[0] then Subsequence(a[1..], b[1..])
    else Subsequence(a, b[1..])
  }

  /** `batch.filter(n => !prev.some(e => e.title === n.title))`: the filter
      looks only at `prev`, so two batch elements sharing a title both stay. */
  function Fresh(batch: seq<Entry>, prev: seq<Entry>): (r: seq<Entry>)
    ensures |r| <= |batch|
    ensures forall e :: e in r ==> e in batch && !HasTitle(prev, Title(e))
    ensures forall e :: multiset(r)[e] == if HasTitle(prev, Title(e)) then 0 else multiset(batch)[e]
    ensures Subsequence(r, batch)
  {
    if batch == [] then
      []
    else
      var rest := Fresh(batch[1..], prev);
      assert batch == [batch[0]] + batch[1..];
      if HasTitle(prev, Title(batch[0])) then
        rest
      else
        [batch[0]] + rest
  }

  /** `[...newItems, ...prevItems]` for Shapes A and B. */
  function MergeBatch(prev: seq<Entry>, batch: seq<Entry>): (r: seq<Entry>)
    ensures |prev| <= |r| <= |prev| + |batch|
    ensures r[|r| - |prev|..] == prev
    ensures r[..|r| - |prev|] == Fresh(batch, prev)
  {
    Fresh(batch, prev) + prev
  }

  /** The Shape C path: an item whose title is already present leaves the
      collection as it was, anything else goes in front. */
  function MergeSingle(prev: seq<Entry>, e: Entry): (r: seq<Entry>)
    ensures r == prev <==> HasTitle(prev, Title(e))
    ensures r != prev ==> r == [e] + prev
  {
    if HasTitle(prev, Title(e)) then prev else [e] + prev
  }

  /** Every title of the first collection is in the second. */
  lemma {:induction false} FreshAllPresent(batch: seq<Entry>, prev: seq<Entry>)
    requires forall e :: e in batch ==> HasTitle(prev, Title(e))
    ensures Fresh(batch, prev) == []
  {
    if batch != [] {
      assert batch[0] in batch;
      FreshAllPresent(batch[1..], prev);
    }
  }

  /** Merging the same batch again into the result of a merge changes
      nothing: every element of the batch now finds its title. */
  lemma MergeBatchIdempotent(prev: seq<Entry>, batch: seq<Entry>)
    ensures MergeBatch(MergeBatch(prev, batch), batch) == MergeBatch(prev, batch)
  {
    var r := MergeBatch(prev, batch);
    var f := Fresh(batch, prev);
    assert r == f + prev;
    forall e | e in batch
      ensures HasTitle(r, Title(e))
    {
      if HasTitle(prev, Title(e)) {
        var x :| x in prev && Title(x) == Title(e);
        assert x in r;
      } else {
        assert multiset(f)[e] == multiset(batch)[e] > 0;
        assert e in f;
        assert e in r;
      }
    }
    FreshAllPresent(batch, r);
  }

  /** The single-item path agrees with the batch path on a one-element batch. */
  lemma MergeSingleIsBatchOfOne(prev: seq<Entry>, e: Entry)
    ensures MergeSingle(prev, e) == MergeBatch(prev, [e])
  {
    assert [e][1..] == [];
    assert Fresh([e], prev) == if HasTitle(prev, Title(e)) then [] else [e];
  }

  /** The title-uniqueness invariant survives a batch merge when the batch
      itself has no repeated title. */
  lemma MergeBatchKeepsUnique(prev: seq<Entry>, batch: seq<Entry>)
    requires TitleUnique(prev)
    requires TitleUnique(batch)
    ensures TitleUnique(MergeBatch(prev, batch))
  {
    var f := Fresh(batch, prev);
    var r := f + prev;
    FreshKeepsUnique(batch, prev);
    forall i, j | 0 <= i < j < |r|
      ensures Title(r[i]) != Title(r[j])
    {
      if j < |f| {
      } else if i < |f| {
        assert f[i] in f;
        assert r[j] == prev[j - |f|];
        assert r[j] in prev;
      } else {
        assert r[i] == prev[i - |f|] && r[j] == prev[j - |f|];
      }
    }
  }

  lemma {:induction false} FreshKeepsUnique(batch: seq<Entry>, prev: seq<Entry>)
    requires TitleUnique(batch)
    ensures TitleUnique(Fresh(batch, prev))
  {
    if batch != [] {
      UniqueTail(batch);
      FreshKeepsUnique(batch[1..], prev);
      if !HasTitle(prev, Title(batch[0])) {
        ConsUnique(batch[0], Fresh(batch[1..], prev));
      }
    }
  }

  lemma UniqueTail(s: seq<Entry>)
    requires TitleUnique(s)
    requires |s| > 0
    ensures TitleUnique(s[1..])
    ensures forall x :: x in s[1..] ==> Title(x) != Title(s[0])
  {
    var tail := s[1..];
    forall i, j | 0 <= i < j < |tail|
      ensures Title(tail[i]) != Title(tail[j])
    {
      assert tail[i] == s[i + 1] && tail[j] == s[j + 1];
    }
    forall x | x in tail
      ensures Title(x) != Title(s[0])
    {
      var k :| 0 <= k < |tail| && tail[k] == x;
      assert s[k + 1] == x;
    }
  }

  lemma ConsUnique(e: Entry, s: seq<Entry>)
    requires TitleUnique(s)
    requires forall x :: x in s ==> Title(x) != Title(e)
    ensures TitleUnique([e] + s)
  {
    var r := [e] + s;
    forall i, j | 0 <= i < j < |r|
      ensures Title(r[i]) != Title(r[j])
    {
      if i == 0 {
        assert r[j] == s[j - 1];
        assert r[j] in s;
      } else {
        assert r[i] == s[i - 1] && r[j] == s[j - 1];
      }
    }
  }

  /** Duplicates inside one batch are not filtered: two items sharing a
      title the collection lacks both enter it, in front of it. */
  lemma BatchDuplicatesSurvive(prev: seq<Entry>, e1: Entry, e2: Entry)
    requires Title(e1) == Title(e2)
    requires !HasTitle(prev, Title(e1))
    ensures MergeBatch(prev, [e1, e2]) == [e1, e2] + prev
    ensures !TitleUnique(MergeBatch(prev, [e1, e2]))
  {
    assert [e1, e2][1..] == [e2];
    assert [e2][1..] == [];
    assert Fresh([e2], prev) == [e2];
    assert Fresh([e1, e2], prev) == [e1, e2];
    var r := MergeBatch(prev, [e1, e2]);
    assert r[0] == e1 && r[1] == e2;
  }

  /** The single-item path keeps the collection title-unique. */
  lemma MergeSingleKeepsUnique(prev: seq<Entry>, e: Entry)
    requires TitleUnique(prev)
    ensures TitleUnique(MergeSingle(prev, e))
  {
    if !HasTitle(prev, Title(e)) {
      ConsUnique(e, prev);
    }
  }
}

=== FILE: normalize.dfy ===
/** The Item Normalizer of the dashboard (frontend/src/components/Dashboard.jsx):
    classifying a decoded stream payload into one of three shapes and
    reshaping it into collection entries. */
module Normalize {
  import opened Js

  /** A Shape A topic after `simplifyTrendingNews`: the raw record, cut down
      to at most its first news element. It has no top-level `title`. */
  datatype TrendRecord = TrendRecord(
    pubDate: Value,
    trend: Value,
    news: seq<Value>,
    groqAnalysis: Value,
    publishedDate: Value)

  /** The item built by `formatTrendNewsItem` and `formatSingleNewsItem`. */
  datatype NewsItem = NewsItem(
    title: Value,
    source: Value,
    time: string,
    snippet: Value,
    sentiment: string,
    bias: string,
    emotion: Value,
    verified: bool,
    newItem: bool,
    newsUrl: Value)

  /** An element of the collection: a Shape A record or a formatted item. */
  datatype Entry = Record(record: TrendRecord) | Item(item: NewsItem)

  /** `entry.title`: a Shape A record has none. */
  function Title(e: Entry): Value {
    match e
    case Record(_) => Undefined
    case Item(it) => it.title
  }

  /** `entry.groqAnalysis`: formatted items do not carry the analysis. */
  function Analysis(e: Entry): Value {
    match e
    case Record(r) => r.groqAnalysis
    case Item(_) => Undefined
  }

  /** `entry.pubDate`: formatted items keep only the formatted `time`. */
  function PubDate(e: Entry): Value {
    match e
    case Record(r) => r.pubDate
    case Item(_) => Undefined
  }

  /** The payload shapes, in the order `onmessage` tests them. */
  datatype Shape =
    | ShapeA(topics: seq<Value>)
    | ShapeB(news: seq<Value>, pubDate: Value, groqAnalysis: Value)
    | ShapeC(data: Value)

  /** `isGoogleNewsArray`: `data.length` is falsy for an empty array and
      `data[0]?.news` is undefined for a nullish first element. */
  function IsGoogleNewsArray(data: Value): (r: bool)
    ensures r <==> data.Arr? && |data.elems| > 0 && data.elems[0].Obj? && "news" in data.elems[0].fields &&
                   data.elems[0].fields["news"].Arr?
    ensures data.Arr? && |data.elems| > 0 && Nullish(data.elems[0]) ==> !r
  {
    data.Arr? && |data.elems| > 0 && Field(data.elems[0], "news").Arr?
  }

  /** The three-way test of `onmessage`. Testing `data.news` throws when the
      payload is `null`. */
  function Classify(data: Value): (r: Outcome<Shape>)
    ensures r.Ok? && r.value.ShapeA? <==>
              data.Arr? && |data.elems| > 0 && Field(data.elems[0], "news").Arr?
    ensures r.Ok? && r.value.ShapeA? ==> r.value.topics == data.elems
    ensures r.Thrown? <==> Nullish(data)
    ensures r.Ok? && r.value.ShapeB? <==> data.Obj? && Field(data, "news").Arr?
    ensures r.Ok? && r.value.ShapeB? ==>
              && r.value.news == Field(data, "news").elems
              && r.value.pubDate == Field(data, "pubDate")
              && r.value.groqAnalysis == Field(data, "groqAnalysis")
    ensures r.Ok? && r.value.ShapeC? ==> r.value.data == data
  {
    if IsGoogleNewsArray(data) then
      Ok(ShapeA(data.elems))
    else if Nullish(data) then
      Thrown
    else if Field(data, "news").Arr? then
      Ok(ShapeB(Field(data, "news").elems, Field(data, "pubDate"), Field(data, "groqAnalysis")))
    else
      Ok(ShapeC(data))
  }

  /** One topic of `simplifyTrendingNews`. `topic.news.length` throws when
      `news` is nullish; a non-empty string keeps its first character; any
      other non-array value has no `length`, so `undefined > 0` keeps none. */
  function SimplifyTopic(topic: Value): (r: Outcome<TrendRecord>)
    ensures r.Thrown? <==> Nullish(topic) || Nullish(Field(topic, "news"))
    ensures r.Ok? ==> |r.value.news| <= 1
    ensures r.Ok? && Field(topic, "news").Arr? ==>
              && r.value.news <= Field(topic, "news").elems
              && (|Field(topic, "news").elems| > 0 ==> |r.value.news| == 1)
    ensures r.Ok? && Field(topic, "news").Str? && |Field(topic, "news").s| > 0 ==>
              r.value.news == [Str([Field(topic, "news").s[0]])]
    ensures r.Ok? ==>
              && r.value.pubDate == Field(topic, "pubDate")
              && r.value.groqAnalysis == Field(topic, "groqAnalysis")
              && r.value.trend == Field(topic, "trend")
              && r.value.publishedDate == Field(topic, "published_date")
  {
    if Nullish(topic) then
      Thrown
    else
      var news :- match Field(topic, "news")
                  case Undefined => Thrown
                  case Null => Thrown
                  case Arr(es) => Ok(if |es| > 0 then [es[0]] else [])
                  case Str(s) => Ok(if |s| > 0 then [Str([s[0]])] else [])
                  case _ => Ok([]);
      Ok(TrendRecord(
           Field(topic, "pubDate"),
           Field(topic, "trend"),
           news,
           Field(topic, "groqAnalysis"),
           Field(topic, "published_date")))
  }

  /** `simplifyTrendingNews`: any topic that throws aborts the whole map. */
  function SimplifyTrendingNews(topics: seq<Value>): (r: Outcome<seq<TrendRecord>>)
    ensures r.Ok? <==> forall i :: 0 <= i < |topics| ==> SimplifyTopic(topics[i]).Ok?
    ensures r.Ok? ==> |r.value| == |topics|
    ensures r.Ok? ==> forall i :: 0 <= i < |topics| ==> r.value[i] == SimplifyTopic(topics[i]).value
  {
    MapOrThrow(topics, SimplifyTopic)
  }

  /** `groqAnalysis?.sentiment?.toLowerCase() || 'neutral'`: calling
      `toLowerCase` on a label that is neither a string nor nullish throws. */
  function SentimentOf(env: Env, groqAnalysis: Value): (r: Outcome<string>)
    ensures r.Thrown? <==> !Nullish(Field(groqAnalysis, "sentiment")) && !Field(groqAnalysis, "sentiment").Str?
  {
    var s := Field(groqAnalysis, "sentiment");
    if Nullish(s) then
      Ok("neutral")
    else if s.Str? then
      Ok(if env.lower(s.s) != "" then env.lower(s.s) else "neutral")
    else
      Thrown
  }

  /** `groqAnalysis?.bias_level === 'Low' ? '10/100' : '30/100'` */
  function BiasOf(groqAnalysis: Value): (r: string)
    ensures r == "10/100" || r == "30/100"
    ensures r == "10/100" <==> groqAnalysis.Obj? && "bias_level" in groqAnalysis.fields && groqAnalysis.fields["bias_level"] == Str("Low")
  {
    if Field(groqAnalysis, "bias_level") == Str("Low") then "10/100" else "30/100"
  }

  /** The field derivation both formatters share: what an item's sentiment,
      bias, emotion and flags say about the analysis it was built from. */
  predicate FollowsAnalysis(env: Env, groqAnalysis: Value, it: NewsItem) {
    var s := Field(groqAnalysis, "sentiment");
    var mood := Field(groqAnalysis, "mood");
    && (it.bias == "10/100" <==> Field(groqAnalysis, "bias_level") == Str("Low"))
    && (it.bias == "10/100" || it.bias == "30/100")
    && (s.Str? && env.lower(s.s) != "" ==> it.sentiment == env.lower(s.s))
    && (!(s.Str? && env.lower(s.s) != "") ==> it.sentiment == "neutral")
    && (Truthy(mood) ==> it.emotion == mood)
    && (!Truthy(mood) ==> it.emotion == Str("Neutral"))
    && it.verified
    && it.newItem
  }

  /** `formatTrendNewsItem(newsItem, pubDate, groqAnalysis)`: the host comes
      from `newsItem.url` only when `newsItem.source` is falsy. */
  function FormatTrendNewsItem(env: Env, newsItem: Value, pubDate: Value, groqAnalysis: Value): (r: Outcome<NewsItem>)
    ensures r.Thrown? <==>
              || Nullish(newsItem)
              || (!Truthy(Field(newsItem, "source")) && Hostname(env, Field(newsItem, "url")).Thrown?)
              || ConversionThrows(pubDate)
              || SentimentOf(env, groqAnalysis).Thrown?
    ensures r.Ok? ==>
              && FollowsAnalysis(env, groqAnalysis, r.value)
              && r.value.title == Field(newsItem, "title")
              && r.value.newsUrl == Field(newsItem, "url")
              && r.value.time == env.localTime(pubDate)
              && (Truthy(Field(newsItem, "source")) ==> r.value.source == Field(newsItem, "source"))
              && (!Truthy(Field(newsItem, "source")) ==> r.value.source == Hostname(env, Field(newsItem, "url")).value)
              && (Truthy(Field(groqAnalysis, "summary")) ==> r.value.snippet == Field(groqAnalysis, "summary"))
              && (!Truthy(Field(groqAnalysis, "summary")) ==> r.value.snippet == Str(""))
  {
    if Nullish(newsItem) then
      Thrown
    else
      var source :- if Truthy(Field(newsItem, "source")) then Ok(Field(newsItem, "source"))
                    else Hostname(env, Field(newsItem, "url"));
      var time :- LocalTime(env, pubDate);
      var sentiment :- SentimentOf(env, groqAnalysis);
      Ok(NewsItem(
           Field(newsItem, "title"),
           source,
           time,
           Or(Field(groqAnalysis, "summary"), Str("")),
           sentiment,
           BiasOf(groqAnalysis),
           Or(Field(groqAnalysis, "mood"), Str("Neutral")),
           true,
           true,
           Field(newsItem, "url")))
  }

  /** `formatSingleNewsItem(data)`: the host always comes from `newsUrl`, and
      the snippet falls back to `description`. */
  function FormatSingleNewsItem(env: Env, data: Value): (r: Outcome<NewsItem>)
    ensures r.Thrown? <==>
              || Nullish(data)
              || Hostname(env, Field(data, "newsUrl")).Thrown?
              || ConversionThrows(Field(data, "pubDate"))
              || SentimentOf(env, Field(data, "groqAnalysis")).Thrown?
    ensures r.Ok? ==>
              && FollowsAnalysis(env, Field(data, "groqAnalysis"), r.value)
              && r.value.title == Field(data, "title")
              && r.value.newsUrl == Field(data, "newsUrl")
              && r.value.source == Hostname(env, Field(data, "newsUrl")).value
              && r.value.time == env.localTime(Field(data, "pubDate"))
              && (Truthy(Field(Field(data, "groqAnalysis"), "summary")) ==>
                    r.value.snippet == Field(Field(data, "groqAnalysis"), "summary"))
              && (!Truthy(Field(Field(data, "groqAnalysis"), "summary")) ==>
                    r.value.snippet == Field(data, "description"))
  {
    if Nullish(data) then
      Thrown
    else
      var groqAnalysis := Field(data, "groqAnalysis");
      var source :- Hostname(env, Field(data, "newsUrl"));
      var time :- LocalTime(env, Field(data, "pubDate"));
      var sentiment :- SentimentOf(env, groqAnalysis);
      Ok(NewsItem(
           Field(data, "title"),
           source,
           time,
           Or(Field(groqAnalysis, "summary"), Field(data, "description")),
           sentiment,
           BiasOf(groqAnalysis),
           Or(Field(groqAnalysis, "mood"), Str("Neutral")),
           true,
           true,
           Field(data, "newsUrl")))
  }

  /** Shape B fan-out: one formatted item per element of `data.news`, in
      order, every one built from the shared `pubDate` and analysis. */
  function FormatBatch(env: Env, news: seq<Value>, pubDate: Value, groqAnalysis: Value): (r: Outcome<seq<NewsItem>>)
    ensures r.Ok? <==> forall i :: 0 <= i < |news| ==> FormatTrendNewsItem(env, news[i], pubDate, groqAnalysis).Ok?
    ensures r.Ok? ==> |r.value| == |news|
    ensures r.Ok? ==> forall i :: 0 <= i < |news| ==>
              && r.value[i].title == Field(news[i], "title")
              && r.value[i].newsUrl == Field(news[i], "url")
              && r.value[i].time == env.localTime(pubDate)
              && FollowsAnalysis(env, groqAnalysis, r.value[i])
              && r.value[i] == FormatTrendNewsItem(env, news[i], pubDate, groqAnalysis).value
  {
    MapOrThrow(news, (item: Value) => FormatTrendNewsItem(env, item, pubDate, groqAnalysis))
  }

  /** The entries a Shape A batch contributes. */
  function Records(rs: seq<TrendRecord>): (r: seq<Entry>)
    ensures |r| == |rs|
    ensures forall i :: 0 <= i < |rs| ==> r[i] == Record(rs[i])
  {
    seq(|rs|, i requires 0 <= i < |rs| => Record(rs[i]))
  }

  /** The entries a Shape B batch contributes. */
  function Items(items: seq<NewsItem>): (r: seq<Entry>)
    ensures |r| == |items|
    ensures forall i :: 0 <= i < |items| ==> r[i] == Item(items[i])
  {
    seq(|items|, i requires 0 <= i < |items| => Item(items[i]))
  }

  /** What a payload contributes: a batch (Shapes A and B) or one item
      (Shape C). */
  datatype Incoming = Batch(entries: seq<Entry>) | Single(entry: Entry)

  /** The normalizer: classify, then reshape. A throw anywhere, in any
      element, loses the whole payload. */
  function NormalizePayload(env: Env, data: Value): (r: Outcome<Incoming>)
    ensures Classify(data).Thrown? ==> r.Thrown?
    ensures Classify(data).Ok? && Classify(data).value.ShapeA? ==>
              (r.Ok? <==> forall i :: 0 <= i < |data.elems| ==> SimplifyTopic(data.elems[i]).Ok?)
    ensures Classify(data).Ok? && Classify(data).value.ShapeA? && r.Ok? ==>
              && r.value.Batch?
              && |r.value.entries| == |data.elems|
              && forall i :: 0 <= i < |data.elems| ==>
                   r.value.entries[i] == Record(SimplifyTopic(data.elems[i]).value)
    ensures Classify(data).Ok? && Classify(data).value.ShapeB? ==>
              (r.Ok? <==> forall i :: 0 <= i < |Field(data, "news").elems| ==>
                            FormatTrendNewsItem(env, Field(data, "news").elems[i], Field(data, "pubDate"), Field(data, "groqAnalysis")).Ok?)
    ensures Classify(data).Ok? && Classify(data).value.ShapeB? && r.Ok? ==>
              && r.value.Batch?
              && |r.value.entries| == |Field(data, "news").elems|
              && forall i :: 0 <= i < |r.value.entries| ==>
                   && r.value.entries[i].Item?
                   && r.value.entries[i].item.title == Field(Field(data, "news").elems[i], "title")
                   && r.value.entries[i].item.time == env.localTime(Field(data, "pubDate"))
                   && FollowsAnalysis(env, Field(data, "groqAnalysis"), r.value.entries[i].item)
                   && r.value.entries[i].item ==
                        FormatTrendNewsItem(env, Field(data, "news").elems[i], Field(data, "pubDate"), Field(data, "groqAnalysis")).value
    ensures Classify(data).Ok? && Classify(data).value.ShapeC? ==>
              && (r.Ok? <==> FormatSingleNewsItem(env, data).Ok?)
              && (r.Ok? ==> r.value == Single(Item(FormatSingleNewsItem(env, data).value)))
  {
    var shape :- Classify(data);
    match shape
    case ShapeA(topics) =>
      var rs :- SimplifyTrendingNews(topics);
      Ok(Batch(Records(rs)))
    case ShapeB(news, pubDate, groqAnalysis) =>
      var items :- FormatBatch(env, news, pubDate, groqAnalysis);
      Ok(Batch(Items(items)))
    case ShapeC(d) =>
      var it :- FormatSingleNewsItem(env, d);
      Ok(Single(Item(it)))
  }
}

=== FILE: overview.dfy ===
/** The Sentiment Overview (frontend/src/components/SentimentOverview.jsx):
    the share of the collection under each exact-case sentiment label. */
module Overview {
  import opened Js
  import opened Normalize
  import opened Sentiment

  /** `sentimentCount[v] !== undefined`, for a key `v` whose conversion
      succeeds (see `ConversionThrows`): the property key must name one of
      the three counters. A string is its own key; an object converts to
      "[object Object]"; an array converts through `join(",")`, so only a
      one-element array can name a counter, through its element. */
  function CounterOf(v: Value): (r: Option<Label>)
    ensures forall l: Label :: v == Str(Name(l)) ==> r == Some(l)
    ensures forall l: Label :: v == Arr([Str(Name(l))]) ==> r == Some(l)
    ensures r.Some? ==> v.Str? || (v.Arr? && |v.elems| == 1)
    ensures v.Str? ==> forall l: Label :: r == Some(l) <==> v.s == Name(l)
    ensures v.Arr? && |v.elems| != 1 ==> r.None?
    ensures !v.Str? && !v.Arr? ==> r.None?
  {
    match v
    case Str(s) => Named(s)
    case Arr(es) => if |es| == 1 then CounterOf(es[0]) else None
    case _ => None
  }

  /** An array names a counter only through its single element, so `[]`,
      `["Positive", "Positive"]` and every non-string, non-array value count
      nowhere, while `[["Positive"]]` counts as Positive. */
  lemma CounterOfArray(v: Value)
    ensures v.Arr? && |v.elems| == 1 ==> CounterOf(v) == CounterOf(v.elems[0])
    ensures v.Arr? && |v.elems| != 1 ==> CounterOf(v).None?
    ensures !v.Str? && !v.Arr? ==> CounterOf(v).None?
  {
  }

  /** The counter an entry adds to. */
  function LabelOf(e: Entry): Option<Label> {
    CounterOf(Field(Analysis(e), "sentiment"))
  }

  /** The number of entries counted under `l`. */
  function CountLabel(entries: seq<Entry>, l: Label): nat
    decreases |entries|
  {
    if entries == [] then 0
    else CountLabel(entries[..|entries| - 1], l) + (if LabelOf(entries[|entries| - 1]) == Some(l) then 1 else 0)
  }

  /** `total ? Math.round((count / total) * 100) : 0`, rounding halves up. */
  function Percent(count: nat, total: nat): (r: nat)
    ensures total == 0 ==> r == 0
    ensures total > 0 ==> 2 * total * r <= 200 * count + total < 2 * total * r + 2 * total
    ensures count <= total ==> r <= 100
  {
    if total == 0 then 0
    else
      PercentBounds(count, total);
      (200 * count + total) / (2 * total)
  }

  /** Euclidean division of `200 * count + total` by `2 * total`, and its
      cap at 100 when the count is within the total. */
  lemma PercentBounds(count: nat, total: nat)
    requires total > 0
    ensures var q := (200 * count + total) / (2 * total);
            && 2 * total * q <= 200 * count + total < 2 * total * q + 2 * total
            && (count <= total ==> q <= 100)
  {
    var a := 200 * count + total;
    var d := 2 * total;
    var q := a / d;
    assert a == d * q + a % d;
    assert count <= total ==> a < d * 101;
    MulMono(d, 101, q);
  }

  datatype Share = Share(kind: Label, percentage: nat)

  /** The component body: `item.groqAnalysis.sentiment` throws for an entry
      without an analysis, which includes every formatted (Shape B or C)
      item, and using a label whose conversion fails as a property key
      throws too; otherwise three shares, in the order Positive, Neutral,
      Negative. */
  method SentimentOverview(entries: seq<Entry>) returns (r: Outcome<seq<Share>>)
    ensures r.Thrown? <==>
              exists i :: 0 <= i < |entries| && (Nullish(Analysis(entries[i])) || ConversionThrows(Field(Analysis(entries[i]), "sentiment")))
    ensures (exists i :: 0 <= i < |entries| && entries[i].Item?) ==> r.Thrown?
    ensures r.Ok? ==> |r.value| == 3
    ensures r.Ok? ==> r.value[0].kind == Positive && r.value[1].kind == Neutral && r.value[2].kind == Negative
    ensures r.Ok? ==> forall k :: 0 <= k < 3 ==>
              r.value[k].percentage == Percent(CountLabel(entries, r.value[k].kind), |entries|)
    ensures r.Ok? && |entries| == 0 ==> forall k :: 0 <= k < 3 ==> r.value[k].percentage == 0
  {
    var count := Zero;
    var i := 0;
    while i < |entries|
      invariant 0 <= i <= |entries|
      invariant forall j :: 0 <= j < i ==>
                  !Nullish(Analysis(entries[j])) && !ConversionThrows(Field(Analysis(entries[j]), "sentiment"))
      invariant forall l: Label :: count.Get(l) == CountLabel(entries[..i], l)
    {
      var analysis := Analysis(entries[i]);
      if Nullish(analysis) || ConversionThrows(Field(analysis, "sentiment")) {
        return Thrown;
      }
      assert entries[..i + 1][..i] == entries[..i];
      match CounterOf(Field(analysis, "sentiment")) {
        case Some(l) => count := Plus(count, Unit(l));
        case None =>
      }
      i := i + 1;
    }
    assert entries[..i] == entries;
    var total := |entries|;
    r := Ok([
      Share(Positive, Percent(count.positive, total)),
      Share(Neutral, Percent(count.neutral, total)),
      Share(Negative, Percent(count.negative, total))
    ]);
  }

  /** At most one counter moves per entry, so the counts never exceed the
      total. */
  lemma {:induction false} CountsWithinTotal(entries: seq<Entry>)
    ensures CountLabel(entries, Positive) + CountLabel(entries, Neutral) + CountLabel(entries, Negative) <= |entries|
  {
    if entries != [] {
      CountsWithinTotal(entries[..|entries| - 1]);
    }
  }

  /** Every share the overview shows lies between 0 and 100. */
  lemma SharesWithinHundred(entries: seq<Entry>, l: Label)
    ensures Percent(CountLabel(entries, l), |entries|) <= 100
  {
    CountsWithinTotal(entries);
  }

  /** Only the exact-case names are counted: "positive" or "POSITIVE" adds
      to no counter. */
  lemma StringCounterExactCase(s: string, l: Label)
    ensures CounterOf(Str(s)) == Some(l) <==> s == Name(l)
  {
  }

  /** When every entry is counted, the rounded shares add up to 99, 100 or
      101. */
  lemma SharesNearHundred(p: nat, n: nat, g: nat)
    requires p + n + g > 0
    ensures var t := p + n + g;
            99 <= Percent(p, t) + Percent(n, t) + Percent(g, t) <= 101
  {
    var t := p + n + g;
    var a, b, c := Percent(p, t), Percent(n, t), Percent(g, t);
    Distribute(2 * t, a, b, c);
    SumWindow(t, a + b + c);
  }

  lemma Distribute(k: int, a: int, b: int, c: int)
    ensures k * (a + b + c) == k * a + k * b + k * c
  {
  }

  /** A sum of shares whose scaled value lies strictly between 197 and 203
      totals (inclusive at the top) is 99, 100 or 101. */
  lemma SumWindow(t: int, s: int)
    requires t > 0
    requires 197 * t < 2 * t * s <= 203 * t
    ensures 99 <= s <= 101
  {
    MulMono(2 * t, 102, s);
    MulMono(2 * t, s, 98);
  }

  lemma MulMono(k: int, a: int, b: int)
    requires k >= 0
    ensures a <= b ==> k * a <= k * b
  {
    assert k * b == k * a + k * (b - a);
  }

  /** Two Positive entries, one Neutral and one Negative give 50, 25 and 25. */
  lemma FourItemExample()
    ensures Percent(2, 4) == 50 && Percent(1, 4) == 25
  {
  }
}

=== FILE: sentiment.dfy ===
/** The three sentiment labels the aggregators count, and a per-label tally.
    Both aggregators compare labels case-sensitively against these names. */
module Sentiment {
  import opened Js

  datatype Label = Positive | Neutral | Negative

  /** The exact-case key each aggregator counts under. */
  function Name(l: Label): string {
    match l
    case Positive => "Positive"
    case Neutral => "Neutral"
    case Negative => "Negative"
  }

  /** The label whose name is `s`, if any. */
  function Named(s: string): (r: Option<Label>)
    ensures r.Some? ==> Name(r.value) == s
    ensures r.None? ==> forall l: Label :: Name(l) != s
  {
    if s == "Positive" then Some(Positive)
    else if s == "Neutral" then Some(Neutral)
    else if s == "Negative" then Some(Negative)
    else None
  }

  /** `{Positive, Neutral, Negative}` counters. */
  datatype Tally = Tally(positive: nat, neutral: nat, negative: nat) {

    function Get(l: Label): nat {
      match l
      case Positive => positive
      case Neutral => neutral
      case Negative => negative
    }

    function Sum(): nat {
      positive + neutral + negative
    }
  }

  const Zero := Tally(0, 0, 0)

  function Plus(a: Tally, b: Tally): (r: Tally)
    ensures forall l: Label :: r.Get(l) == a.Get(l) + b.Get(l)
  {
    Tally(a.positive + b.positive, a.neutral + b.neutral, a.negative + b.negative)
  }

  /** One count for `l`, none for the others. */
  function Unit(l: Label): (r: Tally)
    ensures r.Get(l) == 1 && r.Sum() == 1
  {
    match l
    case Positive => Tally(1, 0, 0)
    case Neutral => Tally(0, 1, 0)
    case Negative => Tally(0, 0, 1)
  }
}

=== FILE: session.dfy ===
/** The dashboard's collection state together with its cache
    (frontend/src/components/Dashboard.jsx): mounting, receiving one stream
    event, and the user's clear action, each followed by the effect that
    writes the cache whenever React sees a new collection array. */
module Session {
  import opened Js
  import opened Normalize
  import opened Merge
  import opened Stream
  import opened Cache

  datatype Dashboard = Dashboard(items: seq<Entry>, store: Store)

  /** The cache mirrors every non-empty collection. */
  predicate Synced(d: Dashboard) {
    |d.items| > 0 ==> d.store.items == Some(d.items) && d.store.timestamp.Some?
  }

  /** Mounting: the load effect hydrates the (initially empty) collection on
      a hit, and the new array re-runs the save effect with the same clock. */
  function Mount(store: Store, now: int): (d: Dashboard)
    ensures Load(store, now).None? ==> d == Dashboard([], store)
    ensures Load(store, now).Some? ==> d.items == store.items.value
    ensures Synced(d)
  {
    match Load(store, now)
    case None => Dashboard([], store)
    case Some(items) => Dashboard(items, Save(store, items, now))
  }

  /** One stream event: the collection is replaced when the handler builds a
      new array, and only then is the cache written. */
  function Receive(env: Env, d: Dashboard, ev: Event, now: int): (r: Dashboard)
    requires Synced(d)
    ensures Synced(r)
    ensures r.items == Apply(d.items, OnMessage(env, d.items, ev))
    ensures |d.items| <= |r.items| && r.items[|r.items| - |d.items|..] == d.items
    ensures OnMessage(env, d.items, ev).Unchanged? ==> r == d
    ensures |r.items| == 0 ==> r.store == d.store
    ensures OnMessage(env, d.items, ev).Replaced? && |r.items| > 0 ==> r.store.timestamp == Some(now)
  {
    match OnMessage(env, d.items, ev)
    case Unchanged => d
    case Replaced(items) => Dashboard(items, Save(d.store, items, now))
  }

  /** `clearCache`: both entries removed and the collection emptied; the
      empty array that follows is never written back. */
  function ClearCache(d: Dashboard): (r: Dashboard)
    ensures r.items == []
    ensures r.store.items.None? && r.store.timestamp.None?
  {
    Dashboard([], Clear(d.store))
  }

  /** Reloading within the expiry time restores exactly the collection the
      dashboard last held. */
  lemma ReloadRestores(d: Dashboard, now: int)
    requires Synced(d)
    requires |d.items| > 0
    requires now < d.store.timestamp.value + CacheExpiryTime
    ensures Mount(d.store, now).items == d.items
  {
  }

  /** A hydrating mount rewrites the timestamp, so a dashboard reloaded every
      few minutes keeps its cache alive indefinitely. */
  lemma MountRefreshesTimestamp(store: Store, now: int)
    requires Load(store, now).Some? && |store.items.value| > 0
    ensures Mount(store, now).store.timestamp == Some(now)
    ensures Mount(store, now).store.items == store.items
  {
  }

  /** A batch event whose every element is already present leaves the
      collection as it was, but still rewrites the cache timestamp; a
      duplicate single item does not. */
  lemma DuplicateBatchRefreshesTimestamp(env: Env, d: Dashboard, data: Value, now: int)
    requires Synced(d)
    requires |d.items| > 0
    requires NormalizePayload(env, data).Ok? && NormalizePayload(env, data).value.Batch?
    requires forall e :: e in NormalizePayload(env, data).value.entries ==> HasTitle(d.items, Title(e))
    ensures Receive(env, d, Decoded(data), now).items == d.items
    ensures Receive(env, d, Decoded(data), now).store.timestamp == Some(now)
  {
    FreshAllPresent(NormalizePayload(env, data).value.entries, d.items);
  }

  /** After a clear, the collection is empty and a later mount, at any
      time, finds nothing to load. */
  lemma ClearThenMount(d: Dashboard, now: int)
    ensures Mount(ClearCache(d).store, now) == Dashboard([], Store(None, None))
  {
  }
}

=== FILE: stream.dfy ===
/** The `onmessage` handler of the dashboard's event stream
    (frontend/src/components/Dashboard.jsx): what one received event does to
    the collection. */
module Stream {
  import opened Js
  import opened Normalize
  import opened Merge

  /** A received event: no data, data that `JSON.parse` rejects, or a
      decoded payload. */
  datatype Event = NoData | Unparsable | Decoded(payload: Value)

  /** What the handler hands to React: nothing (no `setNewsItems` call, or
      an updater returning `prevItems` itself), or a newly built array. Only
      a new array re-runs the effects that depend on the collection. */
  datatype Update = Unchanged | Replaced(items: seq<Entry>)

  /** The collection after an update. */
  function Apply(prev: seq<Entry>, u: Update): seq<Entry> {
    match u
    case Unchanged => prev
    case Replaced(items) => items
  }

  /** The handler: a missing payload, a parse failure or any throw while
      normalizing leaves the collection untouched; a batch is merged in front
      as a new array even when all of it was a duplicate; a single item
      already present keeps the old array. */
  function OnMessage(env: Env, prev: seq<Entry>, ev: Event): (r: Update)
    ensures r.Unchanged? <==>
              || !ev.Decoded?
              || NormalizePayload(env, ev.payload).Thrown?
              || (NormalizePayload(env, ev.payload).value.Single? &&
                  HasTitle(prev, Title(NormalizePayload(env, ev.payload).value.entry)))
    ensures r.Replaced? ==> |prev| <= |r.items| && r.items[|r.items| - |prev|..] == prev
    ensures r.Replaced? ==> forall i :: 0 <= i < |r.items| - |prev| ==> !HasTitle(prev, Title(r.items[i]))
    ensures r.Replaced? && NormalizePayload(env, ev.payload).value.Batch? ==>
              |r.items| <= |prev| + |NormalizePayload(env, ev.payload).value.entries|
    ensures r.Replaced? && NormalizePayload(env, ev.payload).value.Batch? ==>
              r.items[..|r.items| - |prev|] == Fresh(NormalizePayload(env, ev.payload).value.entries, prev)
    ensures r.Replaced? && NormalizePayload(env, ev.payload).value.Single? ==>
              r.items == [NormalizePayload(env, ev.payload).value.entry] + prev
  {
    match ev
    case NoData => Unchanged
    case Unparsable => Unchanged
    case Decoded(data) =>
      match NormalizePayload(env, data)
      case Thrown => Unchanged
      case Ok(Batch(entries)) => Replaced(MergeBatch(prev, entries))
      case Ok(Single(e)) =>
        var r := MergeSingle(prev, e);
        if r == prev then Unchanged else Replaced(r)
  }

  /** A Shape B event is all or nothing: one element whose URL cannot be
      parsed drops every sibling with it. */
  lemma ShapeBFailureDropsEvent(env: Env, prev: seq<Entry>, data: Value, k: nat)
    requires Classify(data).Ok? && Classify(data).value.ShapeB?
    requires k < |Field(data, "news").elems|
    requires FormatTrendNewsItem(env, Field(data, "news").elems[k], Field(data, "pubDate"), Field(data, "groqAnalysis")).Thrown?
    ensures OnMessage(env, prev, Decoded(data)) == Unchanged
  {
  }

  /** A Shape B event that formats fully adds at most one entry per element
      of `news`, each built from the shared publication date and analysis. */
  lemma ShapeBFanOut(env: Env, prev: seq<Entry>, data: Value)
    requires Classify(data).Ok? && Classify(data).value.ShapeB?
    requires forall i :: 0 <= i < |Field(data, "news").elems| ==>
               FormatTrendNewsItem(env, Field(data, "news").elems[i], Field(data, "pubDate"), Field(data, "groqAnalysis")).Ok?
    ensures OnMessage(env, prev, Decoded(data)).Replaced?
    ensures var items := OnMessage(env, prev, Decoded(data)).items;
            && |items| <= |prev| + |Field(data, "news").elems|
            && forall i :: 0 <= i < |items| - |prev| ==>
                 && items[i].Item?
                 && items[i].item.time == env.localTime(Field(data, "pubDate"))
                 && FollowsAnalysis(env, Field(data, "groqAnalysis"), items[i].item)
  {
    var batch := NormalizePayload(env, data).value.entries;
    var items := OnMessage(env, prev, Decoded(data)).items;
    assert items == Fresh(batch, prev) + prev;
    forall i | 0 <= i < |items| - |prev|
      ensures items[i].Item?
      ensures items[i].item.time == env.localTime(Field(data, "pubDate"))
      ensures FollowsAnalysis(env, Field(data, "groqAnalysis"), items[i].item)
    {
      assert items[i] in Fresh(batch, prev);
      assert items[i] in batch;
    }
  }

  /** A Shape A record has no top-level title, so once one is in the
      collection every later Shape A event adds nothing. */
  lemma ShapeAShadowedByRecord(env: Env, prev: seq<Entry>, data: Value)
    requires exists e :: e in prev && e.Record?
    requires IsGoogleNewsArray(data)
    ensures Apply(prev, OnMessage(env, prev, Decoded(data))) == prev
  {
    assert Classify(data).Ok? && Classify(data).value.ShapeA?;
    var n := NormalizePayload(env, data);
    if n.Ok? {
      var batch := n.value.entries;
      var e :| e in prev && e.Record?;
      forall x | x in batch
        ensures HasTitle(prev, Title(x))
      {
        var i :| 0 <= i < |batch| && batch[i] == x;
        assert x.Record?;
        assert Title(x) == Title(e);
      }
      FreshAllPresent(batch, prev);
      assert MergeBatch(prev, batch) == prev;
    }
  }

  /** Two or more Shape A records in one event always share the absent
      title. */
  lemma ShapeABatchNeverUnique(env: Env, data: Value)
    requires IsGoogleNewsArray(data)
    requires NormalizePayload(env, data).Ok?
    requires |data.elems| >= 2
    ensures !TitleUnique(NormalizePayload(env, data).value.entries)
  {
    var batch := NormalizePayload(env, data).value.entries;
    assert Title(batch[0]) == Undefined == Title(batch[1]);
  }

  /** Title uniqueness survives every event whose batch has no internal
      duplicate. */
  lemma OnMessageKeepsUnique(env: Env, prev: seq<Entry>, ev: Event)
    requires TitleUnique(prev)
    requires ev.Decoded? && NormalizePayload(env, ev.payload).Ok? && NormalizePayload(env, ev.payload).value.Batch? ==>
               TitleUnique(NormalizePayload(env, ev.payload).value.entries)
    ensures TitleUnique(Apply(prev, OnMessage(env, prev, ev)))
  {
    if ev.Decoded? {
      match NormalizePayload(env, ev.payload) {
        case Thrown =>
        case Ok(Batch(entries)) => MergeBatchKeepsUnique(prev, entries);
        case Ok(Single(e)) => MergeSingleKeepsUnique(prev, e);
      }
    }
  }

  /** A one-topic Shape A payload adds one entry: the cut-down record itself,
      whose title stays inside its `news` element rather than on the entry. */
  lemma ShapeAExample(env: Env)
    ensures var item := Obj(map["title" := Str("X"), "url" := Str("http://a.com")]);
            var topic := Obj(map["news" := Arr([item]), "pubDate" := Str("T"), "groqAnalysis" := Obj(map[])]);
            var u := OnMessage(env, [], Decoded(Arr([topic])));
            && u.Replaced?
            && |u.items| == 1
            && u.items[0].Record?
            && Title(u.items[0]) == Undefined
            && u.items[0].record.news == [item]
            && Field(u.items[0].record.news[0], "title") == Str("X")
  {
    var item := Obj(map["title" := Str("X"), "url" := Str("http://a.com")]);
    var topic := Obj(map["news" := Arr([item]), "pubDate" := Str("T"), "groqAnalysis" := Obj(map[])]);
    var data := Arr([topic]);
    assert Field(topic, "news") == Arr([item]);
    assert IsGoogleNewsArray(data);
    var rec := SimplifyTopic(topic);
    assert rec.Ok? && |rec.value.news| == 1;
    assert rec.value.news == [item];
    var n := NormalizePayload(env, data);
    assert n.Ok?;
    var entries := n.value.entries;
    assert |entries| == 1 && entries[0] == Record(rec.value);
    assert Fresh(entries, []) == entries;
    assert MergeBatch([], entries) == entries;
    assert Field(item, "title") == Str("X");
  }
}

=== FILE: trend.dfy ===
/** The Sentiment Trend Graph (frontend/src/components/SentimentTrendGraph.jsx):
    one-hot points per entry, grouped into buckets keyed by formatted time
    in first-seen order, and the filter toggled by the legend badges. */
module TrendGraph {
  import opened Js
  import opened Normalize
  import opened Sentiment

  /** `{time, Positive, Neutral, Negative}`, both for one entry and for a
      bucket. */
  datatype Point = Point(time: string, counts: Tally)

  /** One element of `data.map(...)` for an entry whose `pubDate` converts:
      `entry?.groqAnalysis?.sentiment` is compared with `===` against each
      name, so only the exact-case string counts. */
  function OneHot(env: Env, e: Entry): (p: Point)
    ensures p.time == env.localTime(PubDate(e))
    ensures p.counts.Sum() <= 1
    ensures forall l: Label :: p.counts.Get(l) == 1 <==> Field(Analysis(e), "sentiment") == Str(Name(l))
  {
    var s := Field(Analysis(e), "sentiment");
    Point(env.localTime(PubDate(e)),
          if s.Str? && Named(s.s).Some? then Unit(Named(s.s).value) else Zero)
  }

  /** `data.map(...)` over the collection. */
  function OneHots(env: Env, entries: seq<Entry>): (ps: seq<Point>)
    ensures |ps| == |entries|
    ensures forall i :: 0 <= i < |entries| ==> ps[i] == OneHot(env, entries[i])
  {
    seq(|entries|, i requires 0 <= i < |entries| => OneHot(env, entries[i]))
  }

  /** The position of the bucket keyed `t`, if there is one. */
  function IndexOf(buckets: seq<Point>, t: string): (r: Option<nat>)
    ensures r.Some? ==> r.value < |buckets| && buckets[r.value].time == t
    ensures r.None? ==> forall k :: 0 <= k < |buckets| ==> buckets[k].time != t
  {
    if buckets == [] then None
    else if buckets[0].time == t then Some(0)
    else match IndexOf(buckets[1..], t)
         case Some(k) => Some(k + 1)
         case None => None
  }

  /** One step of the `forEach`: a missing bucket is created at the end (the
      insertion order `Object.values` reports), then the point is added. */
  function AddPoint(buckets: seq<Point>, p: Point): (r: seq<Point>)
    ensures |buckets| <= |r| <= |buckets| + 1
    ensures forall k :: 0 <= k < |buckets| ==> r[k].time == buckets[k].time
    ensures |r| == |buckets| + 1 ==> r[|buckets|] == p
  {
    match IndexOf(buckets, p.time)
    case Some(k) => buckets[k := Point(p.time, Plus(buckets[k].counts, p.counts))]
    case None => buckets + [p]
  }

  /** The `aggregated` object's values after the whole `forEach`. */
  function Bucketize(points: seq<Point>): (buckets: seq<Point>)
    ensures |buckets| <= |points|
    ensures |points| > 0 ==> |buckets| > 0
    decreases |points|
  {
    if points == [] then []
    else AddPoint(Bucketize(points[..|points| - 1]), points[|points| - 1])
  }

  /** The effect on a new `data` prop: an empty collection keeps whatever the
      graph showed before; an entry whose `pubDate` cannot be converted makes
      `formatTime` throw inside the effect. The prop is always the
      dashboard's collection array, so the not-an-array test never fires
      here. */
  function UpdateGraph(env: Env, previous: seq<Point>, data: seq<Entry>): (r: Outcome<seq<Point>>)
    ensures |data| == 0 ==> r == Ok(previous)
    ensures |data| > 0 ==> (r.Thrown? <==> exists i :: 0 <= i < |data| && ConversionThrows(PubDate(data[i])))
    ensures |data| > 0 && r.Ok? ==> 0 < |r.value| <= |data| && Grouped(OneHots(env, data), r.value)
    ensures |data| > 0 && r.Ok? ==> forall l: Label :: Total(r.value).Get(l) == CountExact(data, l)
  {
    if |data| == 0 then Ok(previous)
    else if exists i :: 0 <= i < |data| && ConversionThrows(PubDate(data[i])) then Thrown
    else
      BucketizeGroups(OneHots(env, data));
      GraphTotals(env, data);
      Ok(Bucketize(OneHots(env, data)))
  }

  // Reference definitions the buckets are checked against.

  /** The formatted times occurring among the points. */
  function Times(points: seq<Point>): set<string> {
    set p | p in points :: p.time
  }

  /** The index of the first point with time `t`. */
  function FirstSeen(points: seq<Point>, t: string): (r: nat)
    requires t in Times(points)
    ensures r < |points| && points[r].time == t
    ensures forall q :: 0 <= q < r ==> points[q].time != t
  {
    if points[0].time == t then 0
    else
      assert t in Times(points[1..]) by {
        var p :| p in points && p.time == t;
        assert p != points[0];
      }
      1 + FirstSeen(points[1..], t)
  }

  /** The counts of all points with time `t`. */
  function SumAt(points: seq<Point>, t: string): Tally
    decreases |points|
  {
    if points == [] then Zero
    else
      var last := points[|points| - 1];
      var rest := SumAt(points[..|points| - 1], t);
      if last.time == t then Plus(rest, last.counts) else rest
  }

  /** The number of points with time `t`. */
  function CountAt(points: seq<Point>, t: string): nat
    decreases |points|
  {
    if points == [] then 0
    else CountAt(points[..|points| - 1], t) + (if points[|points| - 1].time == t then 1 else 0)
  }

  /** The counts of all points. */
  function Total(points: seq<Point>): Tally
    decreases |points|
  {
    if points == [] then Zero else Plus(Total(points[..|points| - 1]), points[|points| - 1].counts)
  }

  /** The number of entries whose analysis carries exactly the label's name. */
  function CountExact(entries: seq<Entry>, l: Label): nat
    decreases |entries|
  {
    if entries == [] then 0
    else
      CountExact(entries[..|entries| - 1], l) +
      (if Field(Analysis(entries[|entries| - 1]), "sentiment") == Str(Name(l)) then 1 else 0)
  }

  ghost predicate DistinctTimes(buckets: seq<Point>) {
    forall i, j :: 0 <= i < j < |buckets| ==> buckets[i].time != buckets[j].time
  }

  ghost predicate SameTimes(points: seq<Point>, buckets: seq<Point>) {
    Times(buckets) == Times(points)
  }

  ghost predicate FirstSeenOrder(points: seq<Point>, buckets: seq<Point>) {
    forall i, j :: 0 <= i < j < |buckets| ==>
      && buckets[i].time in Times(points)
      && buckets[j].time in Times(points)
      && FirstSeen(points, buckets[i].time) < FirstSeen(points, buckets[j].time)
  }

  ghost predicate Summed(points: seq<Point>, buckets: seq<Point>) {
    forall k :: 0 <= k < |buckets| ==> buckets[k].counts == SumAt(points, buckets[k].time)
  }

  /** What the buckets of a point sequence are: keyed by distinct times,
      covering exactly the times that occur, ordered by first occurrence,
      each holding the sum of the points with its time. */
  ghost predicate Grouped(points: seq<Point>, buckets: seq<Point>) {
    DistinctTimes(buckets) && SameTimes(points, buckets) && FirstSeenOrder(points, buckets) && Summed(points, buckets)
  }

  lemma TimesSnoc(points: seq<Point>, p: Point)
    ensures Times(points + [p]) == Times(points) + {p.time}
  {
    var s := points + [p];
    forall t | t in Times(s)
      ensures t in Times(points) + {p.time}
    {
      var x :| x in s && x.time == t;
      if x != p {
        assert x in points;
      }
    }
    forall t | t in Times(points) + {p.time}
      ensures t in Times(s)
    {
      if t == p.time {
        assert p == s[|s| - 1];
      } else {
        var x :| x in points && x.time == t;
        assert x in s;
      }
    }
  }

  lemma FirstSeenSnoc(points: seq<Point>, p: Point, t: string)
    requires t in Times(points)
    ensures t in Times(points + [p]) && FirstSeen(points + [p], t) == FirstSeen(points, t)
  {
    TimesSnoc(points, p);
    var f := FirstSeen(points, t);
    var g := FirstSeen(points + [p], t);
    assert (points + [p])[f] == points[f];
    assert g <= f;
    assert (points + [p])[g] == points[g];
  }

  lemma FirstSeenNew(points: seq<Point>, p: Point)
    requires p.time !in Times(points)
    ensures p.time in Times(points + [p]) && FirstSeen(points + [p], p.time) == |points|
  {
    TimesSnoc(points, p);
    var s := points + [p];
    forall q | 0 <= q < |points|
      ensures s[q].time != p.time
    {
      assert s[q] == points[q];
      assert points[q] in points;
    }
  }

  lemma SumAtAbsent(points: seq<Point>, t: string)
    requires t !in Times(points)
    ensures SumAt(points, t) == Zero
    decreases |points|
  {
    if points != [] {
      var init := points[..|points| - 1];
      assert points == init + [points[|points| - 1]];
      TimesSnoc(init, points[|points| - 1]);
      SumAtAbsent(init, t);
    }
  }

  /** Equal times position by position give equal time sets. */
  lemma TimesPointwise(a: seq<Point>, b: seq<Point>)
    requires |a| == |b|
    requires forall i :: 0 <= i < |a| ==> a[i].time == b[i].time
    ensures Times(a) == Times(b)
  {
    forall t | t in Times(a)
      ensures t in Times(b)
    {
      var x :| x in a && x.time == t;
      var i :| 0 <= i < |a| && a[i] == x;
      assert b[i] in b;
    }
    forall t | t in Times(b)
      ensures t in Times(a)
    {
      var x :| x in b && x.time == t;
      var i :| 0 <= i < |b| && b[i] == x;
      assert a[i] in a;
    }
  }

  lemma AddPointDistinct(buckets: seq<Point>, p: Point)
    requires DistinctTimes(buckets)
    ensures DistinctTimes(AddPoint(buckets, p))
  {
    var b := AddPoint(buckets, p);
    forall i, j | 0 <= i < j < |b|
      ensures b[i].time != b[j].time
    {
      if j < |buckets| {
        assert b[i].time == buckets[i].time && b[j].time == buckets[j].time;
      } else {
        assert b[i] == buckets[i];
      }
    }
  }

  lemma AddPointTimes(points: seq<Point>, buckets: seq<Point>, p: Point)
    requires SameTimes(points, buckets)
    ensures SameTimes(points + [p], AddPoint(buckets, p))
  {
    TimesSnoc(points, p);
    match IndexOf(buckets, p.time)
    case Some(k) =>
      assert buckets[k] in buckets;
      TimesPointwise(buckets, AddPoint(buckets, p));
    case None =>
      TimesSnoc(buckets, p);
  }

  lemma AddPointOrder(points: seq<Point>, buckets: seq<Point>, p: Point)
    requires SameTimes(points, buckets)
    requires FirstSeenOrder(points, buckets)
    ensures FirstSeenOrder(points + [p], AddPoint(buckets, p))
  {
    var s := points + [p];
    var b := AddPoint(buckets, p);
    TimesSnoc(points, p);
    forall i | 0 <= i < |buckets|
      ensures buckets[i].time in Times(points)
      ensures FirstSeen(s, buckets[i].time) == FirstSeen(points, buckets[i].time)
    {
      assert buckets[i] in buckets;
      FirstSeenSnoc(points, p, buckets[i].time);
    }
    match IndexOf(buckets, p.time)
    case Some(k) =>
      forall i | 0 <= i < |b|
        ensures b[i].time == buckets[i].time
      {
      }
    case None =>
      assert p.time !in Times(buckets);
      FirstSeenNew(points, p);
      forall i, j | 0 <= i < j < |b|
        ensures b[i].time in Times(s) && b[j].time in Times(s)
        ensures FirstSeen(s, b[i].time) < FirstSeen(s, b[j].time)
      {
        assert b[i] == buckets[i];
        if j < |buckets| {
          assert b[j] == buckets[j];
        } else {
          assert b[j] == p;
        }
      }
  }

  lemma AddPointSums(points: seq<Point>, buckets: seq<Point>, p: Point)
    requires SameTimes(points, buckets)
    requires DistinctTimes(buckets)
    requires Summed(points, buckets)
    ensures Summed(points + [p], AddPoint(buckets, p))
  {
    var s := points + [p];
    var b := AddPoint(buckets, p);
    assert s[..|s| - 1] == points;
    forall t
      ensures SumAt(s, t) == if t == p.time then Plus(SumAt(points, t), p.counts) else SumAt(points, t)
    {
    }
    match IndexOf(buckets, p.time)
    case Some(k) =>
      forall i | 0 <= i < |b|
        ensures b[i].counts == SumAt(s, b[i].time)
      {
        if i != k {
          assert b[i] == buckets[i];
        }
      }
    case None =>
      assert p.time !in Times(buckets);
      SumAtAbsent(points, p.time);
      assert Plus(Zero, p.counts) == p.counts;
      forall i | 0 <= i < |b|
        ensures b[i].counts == SumAt(s, b[i].time)
      {
        if i < |buckets| {
          assert b[i] == buckets[i];
        }
      }
  }

  /** Adding one point keeps the grouping invariant. */
  lemma AddPointGroups(points: seq<Point>, buckets: seq<Point>, p: Point)
    requires Grouped(points, buckets)
    ensures Grouped(points + [p], AddPoint(buckets, p))
  {
    AddPointDistinct(buckets, p);
    AddPointTimes(points, buckets, p);
    AddPointOrder(points, buckets, p);
    AddPointSums(points, buckets, p);
  }

  /** The buckets group the points: one bucket per distinct formatted time,
      no other, in first-seen order, each the sum of its points. */
  lemma {:induction false} BucketizeGroups(points: seq<Point>)
    ensures Grouped(points, Bucketize(points))
    decreases |points|
  {
    if points == [] {
      assert Times(points) == {};
    } else {
      var init := points[..|points| - 1];
      var p := points[|points| - 1];
      var b := Bucketize(init);
      assert Bucketize(points) == AddPoint(b, p);
      assert init + [p] == points;
      BucketizeGroups(init);
      AddPointGroups(init, b, p);
    }
  }

  /** Two entries share a bucket exactly when their formatted times are
      equal: each point's time names exactly one bucket. */
  lemma OneBucketPerTime(points: seq<Point>, q: nat)
    requires q < |points|
    ensures exists k :: 0 <= k < |Bucketize(points)| && Bucketize(points)[k].time == points[q].time
    ensures forall k, k' ::
              (0 <= k < |Bucketize(points)| && 0 <= k' < |Bucketize(points)| &&
               Bucketize(points)[k].time == points[q].time && Bucketize(points)[k'].time == points[q].time) ==> k == k'
  {
    var b := Bucketize(points);
    BucketizeGroups(points);
    assert points[q] in points;
    assert points[q].time in Times(b);
    var x :| x in b && x.time == points[q].time;
    var k :| 0 <= k < |b| && b[k] == x;
  }

  lemma {:induction false} TotalUpdate(buckets: seq<Point>, k: nat, x: Point)
    requires k < |buckets|
    ensures Plus(Total(buckets[k := x]), buckets[k].counts) == Plus(Total(buckets), x.counts)
    decreases |buckets|
  {
    var n := |buckets| - 1;
    var u := buckets[k := x];
    assert u[..n] == if k == n then buckets[..n] else buckets[..n][k := x];
    if k < n {
      TotalUpdate(buckets[..n], k, x);
    }
  }

  /** Bucketing neither loses nor invents counts. */
  lemma {:induction false} BucketizeKeepsTotal(points: seq<Point>)
    ensures Total(Bucketize(points)) == Total(points)
    decreases |points|
  {
    if points != [] {
      var init := points[..|points| - 1];
      var p := points[|points| - 1];
      var b := Bucketize(init);
      BucketizeKeepsTotal(init);
      match IndexOf(b, p.time)
      case Some(k) =>
        TotalUpdate(b, k, Point(p.time, Plus(b[k].counts, p.counts)));
      case None =>
        assert (b + [p])[..|b|] == b;
    }
  }

  /** Over the one-hot points, the total for a label is the number of
      entries carrying exactly that label. */
  lemma {:induction false} OneHotTotal(env: Env, entries: seq<Entry>, l: Label)
    ensures Total(OneHots(env, entries)).Get(l) == CountExact(entries, l)
    decreases |entries|
  {
    if entries != [] {
      var n := |entries| - 1;
      var ps := OneHots(env, entries);
      assert ps[..n] == OneHots(env, entries[..n]);
      OneHotTotal(env, entries[..n], l);
      var last := OneHot(env, entries[n]);
      assert ps[n] == last;
      assert Total(ps) == Plus(Total(ps[..n]), last.counts);
      assert last.counts.Get(l) == if Field(Analysis(entries[n]), "sentiment") == Str(Name(l)) then 1 else 0;
    }
  }

  /** For each label, the buckets of the graph add up to the number of
      entries with exactly that label. */
  lemma GraphTotals(env: Env, entries: seq<Entry>)
    ensures forall l: Label :: Total(Bucketize(OneHots(env, entries))).Get(l) == CountExact(entries, l)
  {
    BucketizeKeepsTotal(OneHots(env, entries));
    forall l: Label
      ensures Total(Bucketize(OneHots(env, entries))).Get(l) == CountExact(entries, l)
    {
      OneHotTotal(env, entries, l);
    }
  }

  /** Among one-hot points, the counts at a time never exceed the number of
      points at that time. */
  lemma {:induction false} OneHotSumAtBound(points: seq<Point>, t: string)
    requires forall i :: 0 <= i < |points| ==> points[i].counts.Sum() <= 1
    ensures SumAt(points, t).Sum() <= CountAt(points, t)
    decreases |points|
  {
    if points != [] {
      OneHotSumAtBound(points[..|points| - 1], t);
    }
  }

  /** Each bucket of the graph holds at most as many counts as entries. */
  lemma BucketWithinSize(env: Env, entries: seq<Entry>, k: nat)
    requires k < |Bucketize(OneHots(env, entries))|
    ensures var b := Bucketize(OneHots(env, entries))[k];
            b.counts.Sum() <= CountAt(OneHots(env, entries), b.time)
  {
    var ps := OneHots(env, entries);
    BucketizeGroups(ps);
    OneHotSumAtBound(ps, Bucketize(ps)[k].time);
  }

  /** `handleSentimentClick`: clicking the active label clears the filter;
      any other click selects the clicked label. */
  function Toggle(active: Option<Label>, clicked: Label): (r: Option<Label>)
    ensures r.None? <==> active == Some(clicked)
    ensures r.Some? ==> r.value == clicked
  {
    if active == Some(clicked) then None else Some(clicked)
  }

  /** Clicking the same badge twice restores the filter exactly when the
      filter was off or already on that badge; from another badge it ends
      off. */
  lemma ToggleTwice(active: Option<Label>, clicked: Label)
    ensures Toggle(Toggle(active, clicked), clicked) == active <==> active.None? || active == Some(clicked)
    ensures active.Some? && active != Some(clicked) ==> Toggle(Toggle(active, clicked), clicked).None?
  {
  }

  /** The lines drawn, in legend order: with no filter every label, and
      otherwise only the active one. */
  function VisibleLines(active: Option<Label>): (r: seq<Label>)
    ensures active.None? ==> r == [Positive, Neutral, Negative]
    ensures active.Some? ==> r == [active.value]
  {
    ShownLegend(active);
    Shown([Positive, Neutral, Negative], active)
  }

  lemma ShownLegend(active: Option<Label>)
    ensures active.None? ==> Shown([Positive, Neutral, Negative], active) == [Positive, Neutral, Negative]
    ensures active.Some? ==> Shown([Positive, Neutral, Negative], active) == [active.value]
  {
    var all := [Positive, Neutral, Negative];
    assert all[1..] == [Neutral, Negative] && all[1..][1..] == [Negative] && all[1..][1..][1..] == [];
    match active {
      case None =>
      case Some(Positive) =>
      case Some(Neutral) =>
      case Some(Negative) =>
    }
  }

  /** `(!activeSentiment || activeSentiment === sentiment) && <Line/>` over
      the legend. */
  function Shown(labels: seq<Label>, active: Option<Label>): seq<Label> {
    if labels == [] then []
    else (if active.None? || active == Some(labels[0]) then [labels[0]] else []) + Shown(labels[1..], active)
  }
}
